=== FILE: README.md ===
# Personal search demo: retrieval pipeline and grid result cache, in Dafny

This project models the logic of a small search demo:

- the **trigram retriever** (`PersonalSearch.search`): it turns texts into sets of
  character trigrams, scores every stored chunk by the Jaccard similarity of its
  trigrams to the query's, keeps the best `MIN_CHUNKS_TO_RETURN` chunks, and
  writes the score into the kept chunks while clearing it on all others;
- the **simulated reranker** (`Reranker.rerank`): a stable sort by embedding
  score, highest first, with a missing score counted as 0, followed by a
  positional rerank score `1 - i/n`;
- the **grid page's result cache** (`table_script.js`): five per-column caches,
  the column whose results are expected (`lastSearchedCol`), and the result
  cells that show the first four cached items of each column. Key presses,
  searches and inbound socket frames are pure transitions on this state.

Modules, one per component:

| file | module | models |
|---|---|---|
| `models.dfy` | `Models` | `Option` and the `Chunk` record |
| `stable_order.dfy` | `StableOrder` | Python's stable `sort(reverse=True)` on a real key, as an ordering of positions |
| `trigrams.dfy` | `Trigrams` | `get_trigrams`, `trigram_similarity` |
| `personal_search.dfy` | `PersonalSearch` | `MIN_CHUNKS_TO_RETURN`, `PersonalSearch.search` |
| `reranker.dfy` | `Reranker` | `Reranker.rerank` |
| `grid.dfy` | `Grid` | the cache state, `clearResultsColumn`, `triggerSearch`, `handleEnterKey`, `updateTableColumn`, `socket.onmessage` and the fallback `onerror`/`onclose` handlers |
| `pipeline.dfy` | `Pipeline` | search followed by rerank, as the `/search` endpoint runs them |

Modelling choices:

- Scores are exact `real`s. The Jaccard ratio, the embedding scores and `1 - i/n`
  carry no floating-point rounding.
- The source sorts a list: in place in `search`, where the list holds (chunk, score)
  pairs, and into a new list in `rerank`. Afterwards it writes scores into the
  shared `Chunk` objects. Here a sort is a list of positions (`StableOrder.Order`)
  in the strict total order "higher key first, and on equal keys the earlier
  position first". That is exactly what Python's stable
  `sort(..., reverse=True)` produces. `StableOrder.OrderUnique` shows that this
  specification fixes the order completely.
- The stored chunk list is a parameter, not the 36 hard-coded chunks.
  `PersonalSearch.Search` returns the results and also the stored list as the
  in-place score writes leave it. The returned chunks are the stored chunks after
  those writes (`PersonalSearch.SearchResults`).
- On the grid page, three things are inputs rather than state:
  - whether the socket is open and whether `socket.send` throws (`Grid.SendOutcome`);
  - the key event;
  - the inbound frame, already decoded (`Grid.Message`).
  The frame's `data` follows JavaScript truthiness: an array is always truthy, and
  a missing or `null` value is falsy. An item is either an object with an optional
  `text`, or JSON `null`.
- Reading `.text` of a `null` item throws inside `updateTableColumn`. The handler
  catches it: the batch is already appended, the rows before that item are
  already redrawn, and `lastSearchedCol` is reset. The model keeps all three
  effects (`Grid.RenderRows`, `Grid.OnMessage`).
- The source differs from its own docstring. `search` says it "always returns at
  least" `MIN_CHUNKS_TO_RETURN` chunks, but the code (app/components/personal_search.py:98-100)
  returns exactly `min(len(chunks), 2)`. The model follows the code.
- When the query is empty, `search` returns the first two stored chunks unchanged.
  Whatever trigram scores an earlier search wrote into them are kept. The model
  keeps this behaviour too.

## Model

| member | source | states |
|---|---|---|
| `Trigrams.GetTrigrams` | app/components/personal_search.py:6-13 | the trigram set is empty exactly when the text is empty; every trigram has length 3 |
| `Trigrams.WindowsFromIsWindows` | app/components/personal_search.py:13 | the set comprehension over window positions equals the windows collected one position at a time |
| `Trigrams.TrigramCount` | app/components/personal_search.py:11-13 | a non-empty text of n characters has between 1 and n distinct trigrams |
| `Trigrams.TrigramsIgnoreCase` | app/components/personal_search.py:11 | a text and its lower-cased form have the same trigrams |
| `Trigrams.Similarity` | app/components/personal_search.py:15-22 | the similarity lies in [0, 1] and is 0 when either set is empty |
| `Trigrams.SimilaritySymmetric` | app/components/personal_search.py:19-20 | the similarity of a and b equals that of b and a |
| `Trigrams.SimilarityOne` | app/components/personal_search.py:17-22 | the similarity is 1 exactly when both sets are equal and non-empty |
| `StableOrder.Order` | app/components/personal_search.py:93-94 | the result lists every position exactly once, keys are non-increasing along it, and equal keys keep their original order |
| `StableOrder.OrderUnique` | app/components/reranker.py:11-15 | any rearrangement of the positions that is ordered by "higher key, then earlier position" is the one computed |
| `StableOrder.OrderKeepsTiers` | app/components/reranker.py:11-15 | among positions that share a key, the sorted order is the original order (stability) |
| `StableOrder.SelectRearranges` | app/components/reranker.py:11-15 | reading items off at a rearrangement of their positions gives a rearrangement of the items |
| `PersonalSearch.KeepCount` | app/components/personal_search.py:98 | `min(n, max(MIN_CHUNKS_TO_RETURN, 1))` is `min(n, 2)`: never more than the stored chunks, and at least one when any are stored |
| `PersonalSearch.Kept` | app/components/personal_search.py:96-100 | a non-empty query keeps `min(len(chunks), MIN_CHUNKS_TO_RETURN)` valid stored positions |
| `PersonalSearch.ClearScores` | app/components/personal_search.py:86-88 | after the reset loop every stored chunk has no trigram score and is otherwise unchanged |
| `PersonalSearch.WriteKept` | app/components/personal_search.py:105-107 | after writing the kept positions one after the other, a stored chunk carries its own similarity exactly when its position was kept, and is unchanged otherwise |
| `PersonalSearch.Rescore` | app/components/personal_search.py:86-107 | after the reset and write loops, every stored score is None except at kept positions, which carry their similarity; result p is the stored chunk at kept position p as the writes leave it |
| `PersonalSearch.KeptDistinct` | app/components/personal_search.py:93-100 | no stored chunk is kept twice |
| `PersonalSearch.Search` | app/components/personal_search.py:70-112 | the fallback branch is taken exactly for the empty query and returns the first two stored chunks with the store unchanged; otherwise `min(n, 2)` results; only trigram scores of stored chunks change. Each chunk's score is the similarity of its trigrams to the query's (`PersonalSearch.Scores`, lines 89-90) |
| `PersonalSearch.SearchResults` | app/components/personal_search.py:86-91 | results are distinct stored chunks, each the stored chunk after the search carrying its own similarity; every chunk not returned has its score reset to None |
| `PersonalSearch.SearchRanked` | app/components/personal_search.py:93-100 | results come in non-increasing similarity, and equal similarities keep stored order |
| `PersonalSearch.SearchKeepsBest` | app/components/personal_search.py:94-100 | no chunk left out scores higher than a returned one, and on a tie the returned one is stored earlier |
| `Reranker.PositionScore` | app/components/reranker.py:19 | the positional score lies in (0, 1] and is 1 exactly at the first position |
| `Reranker.Rerank` | app/components/reranker.py:11-19 | the output has the input's length, is non-increasing in embedding score with None as 0 (`Reranker.EffectiveScore`, line 13), and position p carries rerank score 1 - p/n |
| `Reranker.RerankPositions` | app/components/reranker.py:18-19 | every output chunk is some input chunk with only its rerank score replaced |
| `Reranker.RerankRearranges` | app/components/reranker.py:11-15 | with rerank scores erased, the output is a rearrangement of the input |
| `Reranker.RerankScoresDecrease` | app/components/reranker.py:17-19 | the first chunk gets 1.0 and rerank scores strictly decrease along the output |
| `Reranker.RerankStable` | app/components/reranker.py:11-15 | for every embedding score, the chunks that share it keep their input relative order |
| `Pipeline.RetrieveThenRerank` | app/main.py:63-68 | retrieval is empty only for an empty store; reranking returns the retrieved chunks rearranged, scored 1 and 0.5 when two were retrieved |
| `Grid.Init` | app/static/table_script.js:7-19 | after loading, all five caches are empty, no column is expected, and all result cells are blank |
| `Grid.InitConsistent` | app/static/table_script.js:17-38 | the loaded page shows exactly what its caches project |
| `Grid.RenderRows` | app/static/table_script.js:45-55 | row j+1 is written with item j's text, or '' past the end, exactly when neither item j nor any item before it is null; the redraw finishes exactly when no null item is visible |
| `Grid.UpdateTableColumn` | app/static/table_script.js:41-56 | row i of the column shows the text of `cache[i-1]`, or '' when that text is missing (`Grid.CellText`, line 50) or the cache ends, for every row before the first null item; later rows keep their text; it finishes exactly when the first four items hold no null |
| `Grid.OnlyFirstItemsShown` | app/static/table_script.js:45-53 | items cached behind the first four, a null among them included, change neither the redrawn cells nor whether the redraw finishes |
| `Grid.ClearResultsColumn` | app/static/table_script.js:59-70 | the target column's cache and cells are emptied and nothing else changes |
| `Grid.TriggerSearch` | app/static/table_script.js:90-125 | with the socket open the target column is cleared and becomes the expected one (reset if sending throws); with it closed, no cache changes and no column is expected; other columns are untouched |
| `Grid.HandleEnterKey` | app/static/table_script.js:73-87 | Enter in row 0 with a non-empty value searches for that cell's column: the column becomes the expected one only if the send succeeds and no column is expected otherwise; the column is cleared unless the socket is closed; other columns' caches and cells are unchanged. Any other key, row or an empty value changes nothing |
| `Grid.Batch` | app/static/table_script.js:144 | a single item is wrapped into a one-item list and an array is taken as is |
| `Grid.OnMessage` | app/static/table_script.js:131-183 | a results batch (with `data` truthy as `Grid.Truthy` says, lines 141 and 158) is appended in order to the expected column only, whose rows are redrawn from the grown cache up to the first null item; results nobody expects and unknown actions change nothing; an error or an undecodable frame only resets the expected column |
| `Grid.OnConnectionLost` | app/static/table_script.js:185-186 | a fallback error or close handler resets the expected column without touching any cache |
| `Grid.TransitionsKeepConsistent` | app/static/table_script.js:59-125 | searches, key presses and connection loss keep every column's cells equal to the projection of its cache |
| `Grid.OnMessageKeepsConsistent` | app/static/table_script.js:141-151 | a frame without null items keeps every column's cells equal to the projection of its cache |
| `Grid.BatchesAccumulate` | app/static/table_script.js:141-151 | after any run of null-free results frames, the expected column's cache has grown by exactly their items in order; it stays expected and shown, and other columns are untouched |
| `Grid.IdleIgnoresFrames` | app/static/table_script.js:153-155 | with no column expected, any run of frames leaves the page unchanged |
| `Grid.NullFrameEndsStream` | app/static/table_script.js:141-155 | a results frame that holds a null and still fits in the first four cache positions is appended, the column stops being expected, and every later frame is dropped |
| `Grid.SearchThenStream` | app/static/table_script.js:90-151 | a search sent for a column followed by null-free results frames leaves that column holding and showing exactly the concatenated batches |

## Left out

- Console logging, the loading and error `div`s, and error message texts are left out. They are display only and hold no state the logic reads.
- Building the grid's DOM cells and the `setTimeout` retry in `setupTableWebSocketListener` are left out. They are UI and timer plumbing.
- The outbound `{action: "search", query}` frame is left out. Only its effect on the page state is modelled: sending succeeds, sending throws, or the socket is not open.
- JSON parsing is left out. Frames arrive already decoded as `Grid.Message`.
- `Grid.Item`: a non-string truthy `text` value stands for its string conversion.
- The list page (app/static/script.js) is left out. That means the form submit, `fetch`, and rendering scores with `toFixed(3)`, which is float-to-string formatting.
- The `/search` endpoint's HTTP handling and the LLM call are left out. That covers FastAPI routing, status codes and the summary text. Only the retrieval composition is stated (`Pipeline.RetrieveThenRerank`).
- `print` tracing in `search` and `rerank` is left out. It is I/O.
- The contents of `HARDCODED_CHUNKS` are left out. The stored list is a parameter.
- `Trigrams.LowerChar`: lower-cases ASCII letters only. Python's `str.lower` maps all of Unicode, which is not modelled. `Trigrams.TrigramCount`'s upper bound of n trigrams relies on lower-casing keeping the length; in Python `'İ'.lower()` is two characters, so `get_trigrams("İ")` has 2 trigrams.
- `Trigrams.Similarity`, `Reranker.PositionScore`: these are exact real arithmetic. IEEE-754 rounding of the division is not modelled.
- Chunk identity is a position in the stored list. When the same object appears twice in a Python list, both entries are one object, and that aliasing is not modelled.

=== FILE: grid.dfy ===
/** The grid page's per-column result cache (app/static/table_script.js).

    The page state is the five column caches, the column whose results are
    expected (`lastSearchedCol`), and the text shown in result rows 1..4 of
    every column. Whether the socket is open, whether sending throws, the key
    pressed and the decoded server message are inputs to pure transition
    functions. */
module Grid {
  import opened Models

  const Rows: nat := 5
  const Cols: nat := 5
  /** Rows 1..Rows-1 of a column show results; row 0 holds the query. */
  const ResultRows: nat := Rows - 1

  /** A row or column number of the grid, which is square (Rows == Cols). */
  type Index = i: int | 0 <= i < Cols

  /** One decoded result item: an object whose `text` field is displayed
      (None when the field is missing or falsy), or JSON `null`. */
  datatype Item = Obj(text: Option<string>) | Null

  /** The `data` field of a server message: missing or falsy, one item, or an array. */
  datatype Data = Absent | One(item: Item) | Many(items: seq<Item>)

  /** An inbound frame after JSON decoding; `Unparseable` also covers a frame
      that decodes to `null`, whose `.action` lookup throws. */
  datatype Message = Parsed(action: string, data: Data) | Unparseable

  /** What happens when a search is sent: the socket is not open, the send
      succeeds, or `socket.send` throws. */
  datatype SendOutcome = NotOpen | Sent | SendFailed

  /** A keydown in the cell at (row, col) whose input holds `value`. */
  datatype KeyEvent = KeyEvent(key: string, row: Index, col: Index, value: string)

  datatype GridState = GridState(
    caches: seq<seq<Item>>,
    lastSearchedCol: Option<Index>,
    shown: seq<seq<string>>   // shown[c][k]: the value of the cell in row k+1, column c
  )

  predicate Valid(s: GridState) {
    && |s.caches| == Cols
    && |s.shown| == Cols
    && forall c :: 0 <= c < Cols ==> |s.shown[c]| == ResultRows
  }

  function BlankColumn(): (r: seq<string>)
    ensures |r| == ResultRows && forall k :: 0 <= k < ResultRows ==> r[k] == ""
  {
    seq(ResultRows, k => "")
  }

  /** The page as loaded: every cache empty, no column expected, result cells empty. */
  function Init(): (s: GridState)
    ensures Valid(s)
    ensures forall c :: 0 <= c < Cols ==> s.caches[c] == [] && s.shown[c] == BlankColumn()
    ensures s.lastSearchedCol == None
  {
    GridState(seq(Cols, c => []), None, seq(Cols, c => BlankColumn()))
  }

  /** The text an object item puts in its cell: `item.text || ''`. */
  function CellText(item: Item): string
    requires item.Obj?
  {
    match item.text
    case Some(t) => t
    case None => ""
  }

  /** No JSON null among positions lo..hi of `cache` that exist. */
  predicate NoNullIn(cache: seq<Item>, lo: nat, hi: nat) {
    forall i :: lo <= i <= hi && i < |cache| ==> cache[i].Obj?
  }

  /** What result row k+1 of a column shows for its cache: item k's text,
      or '' past the end of the cache. */
  function Projection(cache: seq<Item>, k: nat): string
    requires k < |cache| ==> cache[k].Obj?
  {
    if k < |cache| then CellText(cache[k]) else ""
  }

  /** The outcome of redrawing a column: the cells afterwards, and whether
      the redraw finished (false when it threw on a null item). */
  datatype Rendered = Rendered(column: seq<string>, ok: bool)

  /** `updateTableColumn` from row k+1 on: row j+1 gets item j's text, or ''
      past the end; reading `.text` of a null item throws, which stops the
      redraw with the earlier rows already written. */
  function RenderRows(cache: seq<Item>, column: seq<string>, k: nat): (r: Rendered)
    requires |column| == ResultRows && k <= ResultRows
    decreases ResultRows - k
    ensures |r.column| == ResultRows
    ensures r.ok <==> NoNullIn(cache, k, ResultRows - 1)
    ensures forall j :: 0 <= j < ResultRows ==>
              r.column[j] == if k <= j && NoNullIn(cache, k, j) then Projection(cache, j) else column[j]
  {
    if k == ResultRows then Rendered(column, true)
    else if k < |cache| && cache[k].Null? then Rendered(column, false)
    else RenderRows(cache, column[k := Projection(cache, k)], k + 1)
  }

  function UpdateTableColumn(cache: seq<Item>, column: seq<string>): (r: Rendered)
    requires |column| == ResultRows
    ensures |r.column| == ResultRows
    ensures r.ok <==> NoNullIn(cache, 0, ResultRows - 1)
    ensures r.ok ==> forall j :: 0 <= j < ResultRows ==> r.column[j] == Projection(cache, j)
    // a null item stops the redraw: the rows before it are written, the rest keep their text
    ensures forall j :: 0 <= j < ResultRows ==>
              r.column[j] == if NoNullIn(cache, 0, j) then Projection(cache, j) else column[j]
  {
    RenderRows(cache, column, 0)
  }

  /** `clearResultsColumn`: empties one column's cache and result cells. */
  function ClearResultsColumn(s: GridState, col: Index): (t: GridState)
    requires Valid(s)
    ensures Valid(t)
    ensures t.caches[col] == [] && t.shown[col] == BlankColumn()
    ensures forall c :: 0 <= c < Cols && c != col ==> t.caches[c] == s.caches[c] && t.shown[c] == s.shown[c]
    ensures t.lastSearchedCol == s.lastSearchedCol
  {
    s.(caches := s.caches[col := []], shown := s.shown[col := BlankColumn()])
  }

  /** `triggerSearch`: with the socket open the column is cleared and becomes
      the expected one (reset again if the send throws); otherwise nothing is
      cleared and no column is expected. */
  function TriggerSearch(s: GridState, col: Index, send: SendOutcome): (t: GridState)
    requires Valid(s)
    ensures Valid(t)
    ensures send == NotOpen ==> t.caches == s.caches && t.shown == s.shown
    ensures send != NotOpen ==> t.caches[col] == [] && t.shown[col] == BlankColumn()
    ensures forall c :: 0 <= c < Cols && c != col ==> t.caches[c] == s.caches[c] && t.shown[c] == s.shown[c]
    ensures t.lastSearchedCol == if send == Sent then Some(col) else None
  {
    match send
    case NotOpen => s.(lastSearchedCol := None)
    case Sent => ClearResultsColumn(s, col).(lastSearchedCol := Some(col))
    case SendFailed => ClearResultsColumn(s, col).(lastSearchedCol := None)
  }

  /** `handleEnterKey`: only Enter in row 0 with a non-empty query searches. */
  function HandleEnterKey(s: GridState, ev: KeyEvent, send: SendOutcome): (t: GridState)
    requires Valid(s)
    ensures Valid(t)
    ensures !(ev.key == "Enter" && ev.row == 0 && ev.value != "") ==> t == s
    ensures ev.key == "Enter" && ev.row == 0 && ev.value != "" ==>
              && t.lastSearchedCol == (if send == Sent then Some(ev.col) else None)
              && (send != NotOpen ==> t.caches[ev.col] == [] && t.shown[ev.col] == BlankColumn())
              && (send == NotOpen ==> t.caches == s.caches && t.shown == s.shown)
              && forall c :: 0 <= c < Cols && c != ev.col ==> t.caches[c] == s.caches[c] && t.shown[c] == s.shown[c]
  {
    if ev.key == "Enter" && ev.row == 0 && ev.value != "" then TriggerSearch(s, ev.col, send)
    else s
  }

  /** JavaScript truthiness of `message.data` (an array is always truthy). */
  predicate Truthy(d: Data) {
    match d
    case Absent => false
    case One(item) => item.Obj?
    case Many(_) => true
  }

  /** The items a truthy `data` carries: an array as is, a single item wrapped. */
  function Batch(d: Data): (r: seq<Item>)
    requires Truthy(d)
    ensures d.One? ==> r == [d.item]
    ensures d.Many? ==> r == d.items
  {
    match d
    case One(item) => [item]
    case Many(items) => items
  }

  predicate IsResults(m: Message) {
    m.Parsed? && m.action == "results" && Truthy(m.data)
  }

  predicate IsError(m: Message) {
    m.Parsed? && m.action == "error" && Truthy(m.data)
  }

  /** The table page's `socket.onmessage` handler. */
  function OnMessage(s: GridState, m: Message): (t: GridState)
    requires Valid(s)
    ensures Valid(t)
    // a results batch is appended, in order, to the expected column only
    ensures IsResults(m) && s.lastSearchedCol.Some? ==>
              var c := s.lastSearchedCol.value;
              && t.caches[c] == s.caches[c] + Batch(m.data)
              && (forall d :: 0 <= d < Cols && d != c ==> t.caches[d] == s.caches[d] && t.shown[d] == s.shown[d])
              && (t.lastSearchedCol == Some(c) <==> NoNullIn(t.caches[c], 0, ResultRows - 1))
              && (t.lastSearchedCol != Some(c) ==> t.lastSearchedCol == None)
              // its result rows are redrawn from the grown cache up to the first null item
              && (forall j :: 0 <= j < ResultRows ==>
                    t.shown[c][j] == if NoNullIn(t.caches[c], 0, j) then Projection(t.caches[c], j) else s.shown[c][j])
    // results nobody expects, and unknown actions, change nothing
    ensures IsResults(m) && s.lastSearchedCol == None ==> t == s
    ensures m.Parsed? && !IsResults(m) && !IsError(m) ==> t == s
    // an error report or an undecodable frame only forgets the expected column
    ensures IsError(m) || m.Unparseable? ==> t == s.(lastSearchedCol := None)
  {
    match m
    case Unparseable => s.(lastSearchedCol := None)
    case Parsed(action, data) =>
      if action == "results" && Truthy(data) then
        match s.lastSearchedCol
        case None => s
        case Some(c) =>
          var cache := s.caches[c] + Batch(data);
          var r := UpdateTableColumn(cache, s.shown[c]);
          GridState(s.caches[c := cache], if r.ok then Some(c) else None, s.shown[c := r.column])
      else if action == "error" && Truthy(data) then s.(lastSearchedCol := None)
      else s
  }

  /** The table page's fallback `onerror`/`onclose` handlers, which are only
      attached when the socket had no such handler already. */
  function OnConnectionLost(s: GridState, handlerAttached: bool): (t: GridState)
    ensures t.caches == s.caches && t.shown == s.shown
    ensures t.lastSearchedCol == if handlerAttached then None else s.lastSearchedCol
  {
    if handlerAttached then s.(lastSearchedCol := None) else s
  }

  /** Every column's cache has no null among its visible items, and its result
      cells show exactly the projection of its cache. */
  predicate Consistent(s: GridState)
    requires Valid(s)
  {
    forall c :: 0 <= c < Cols ==> ColumnConsistent(s.caches[c], s.shown[c])
  }

  predicate ColumnConsistent(cache: seq<Item>, column: seq<string>)
    requires |column| == ResultRows
  {
    && NoNullIn(cache, 0, ResultRows - 1)
    && forall k :: 0 <= k < ResultRows ==> column[k] == Projection(cache, k)
  }

  /** Server data without a JSON null in it. */
  predicate NullFree(d: Data) {
    match d
    case Absent => true
    case One(item) => item.Obj?
    case Many(items) => forall i :: 0 <= i < |items| ==> items[i].Obj?
  }

  lemma InitConsistent()
    ensures Consistent(Init())
  {
  }

  /** Searches, key presses and connection loss keep the cells in step with the caches. */
  lemma TransitionsKeepConsistent(s: GridState, col: Index, ev: KeyEvent, send: SendOutcome, attached: bool)
    requires Valid(s) && Consistent(s)
    ensures Consistent(TriggerSearch(s, col, send))
    ensures Consistent(HandleEnterKey(s, ev, send))
    ensures Consistent(OnConnectionLost(s, attached))
  {
  }

  /** A message whose data holds no null keeps the cells in step with the
      caches: after every batch the expected column is fully redrawn. */
  lemma OnMessageKeepsConsistent(s: GridState, m: Message)
    requires Valid(s) && Consistent(s)
    requires m.Parsed? ==> NullFree(m.data)
    ensures Consistent(OnMessage(s, m))
  {
    if IsResults(m) && s.lastSearchedCol.Some? {
      var c := s.lastSearchedCol.value;
      AppendKeepsColumnConsistent(s.caches[c], Batch(m.data), s.shown[c]);
    }
  }

  lemma AppendKeepsColumnConsistent(cache: seq<Item>, batch: seq<Item>, column: seq<string>)
    requires |column| == ResultRows && ColumnConsistent(cache, column)
    requires forall i :: 0 <= i < |batch| ==> batch[i].Obj?
    ensures NoNullIn(cache + batch, 0, ResultRows - 1)
    ensures ColumnConsistent(cache + batch, UpdateTableColumn(cache + batch, column).column)
  {
    assert NoNullIn(cache + batch, 0, ResultRows - 1) by {
      forall i | 0 <= i <= ResultRows - 1 && i < |cache + batch| ensures (cache + batch)[i].Obj? {
        if i >= |cache| {
          assert (cache + batch)[i] == batch[i - |cache|];
        }
      }
    }
  }

  /** Only the first ResultRows cached items are ever read: items cached behind
      them, a null among them included, change neither the redrawn cells nor
      whether the redraw finishes. */
  lemma OnlyFirstItemsShown(cache: seq<Item>, more: seq<Item>, column: seq<string>)
    requires |column| == ResultRows && |cache| >= ResultRows
    ensures UpdateTableColumn(cache + more, column) == UpdateTableColumn(cache, column)
  {
    assert forall i :: 0 <= i < ResultRows ==> (cache + more)[i] == cache[i];
  }

  /** Delivers a run of inbound frames in arrival order. */
  function Deliver(s: GridState, msgs: seq<Message>): (t: GridState)
    requires Valid(s)
    ensures Valid(t)
    decreases |msgs|
  {
    if msgs == [] then s else Deliver(OnMessage(s, msgs[0]), msgs[1..])
  }

  /** A results frame whose items hold no null. */
  predicate IsCleanBatch(m: Message) {
    IsResults(m) && NullFree(m.data)
  }

  /** The items of a run of results frames, concatenated in arrival order. */
  function Concat(msgs: seq<Message>): (r: seq<Item>)
    requires forall i :: 0 <= i < |msgs| ==> IsCleanBatch(msgs[i])
    decreases |msgs|
    ensures forall i :: 0 <= i < |r| ==> r[i].Obj?
  {
    if msgs == [] then []
    else
      assert IsCleanBatch(msgs[0]);
      assert forall i :: 0 <= i < |msgs| - 1 ==> msgs[1..][i] == msgs[i + 1];
      var head, rest := Batch(msgs[0].data), Concat(msgs[1..]);
      assert forall i :: 0 <= i < |head| + |rest| ==> (head + rest)[i] == if i < |head| then head[i] else rest[i - |head|];
      head + rest
  }

  /** Streamed batches accumulate: after any run of null-free results frames the
      expected column's cache has grown by exactly their items, in order; the
      column stays expected, its cells show the new cache, and no other
      column changes. */
  lemma {:induction false} BatchesAccumulate(s: GridState, c: Index, msgs: seq<Message>)
    requires Valid(s) && s.lastSearchedCol == Some(c)
    requires ColumnConsistent(s.caches[c], s.shown[c])
    requires forall i :: 0 <= i < |msgs| ==> IsCleanBatch(msgs[i])
    ensures var t := Deliver(s, msgs);
            && t.caches[c] == s.caches[c] + Concat(msgs)
            && t.lastSearchedCol == Some(c)
            && ColumnConsistent(t.caches[c], t.shown[c])
            && forall d :: 0 <= d < Cols && d != c ==> t.caches[d] == s.caches[d] && t.shown[d] == s.shown[d]
    decreases |msgs|
  {
    if msgs == [] {
      assert s.caches[c] + [] == s.caches[c];
    } else {
      var m, rest := msgs[0], msgs[1..];
      assert IsCleanBatch(m);
      assert forall i :: 0 <= i < |rest| ==> rest[i] == msgs[i + 1];
      var s' := OnMessage(s, m);
      OneBatch(s, c, m);
      BatchesAccumulate(s', c, rest);
      assert Deliver(s, msgs) == Deliver(s', rest);
      assert Concat(msgs) == Batch(m.data) + Concat(rest);
      AppendAssoc(s.caches[c], Batch(m.data), Concat(rest));
    }
  }

  lemma AppendAssoc<T>(a: seq<T>, b: seq<T>, c: seq<T>)
    ensures a + b + c == a + (b + c)
  {
  }

  /** One clean results frame for the expected column: appended, redrawn, still expected. */
  lemma OneBatch(s: GridState, c: Index, m: Message)
    requires Valid(s) && s.lastSearchedCol == Some(c)
    requires ColumnConsistent(s.caches[c], s.shown[c])
    requires IsCleanBatch(m)
    ensures var t := OnMessage(s, m);
            && t.caches[c] == s.caches[c] + Batch(m.data)
            && t.lastSearchedCol == Some(c)
            && ColumnConsistent(t.caches[c], t.shown[c])
            && forall d :: 0 <= d < Cols && d != c ==> t.caches[d] == s.caches[d] && t.shown[d] == s.shown[d]
  {
    AppendKeepsColumnConsistent(s.caches[c], Batch(m.data), s.shown[c]);
  }

  /** A search sent for a column followed by a run of null-free results
      frames leaves that column holding exactly the concatenated batches, and
      shown. */
  lemma SearchThenStream(s: GridState, col: Index, msgs: seq<Message>)
    requires Valid(s)
    requires forall i :: 0 <= i < |msgs| ==> IsCleanBatch(msgs[i])
    ensures var t := Deliver(TriggerSearch(s, col, Sent), msgs);
            && t.caches[col] == Concat(msgs)
            && t.lastSearchedCol == Some(col)
            && forall k :: 0 <= k < ResultRows ==> t.shown[col][k] == Projection(Concat(msgs), k)
  {
    var s' := TriggerSearch(s, col, Sent);
    BatchesAccumulate(s', col, msgs);
    assert [] + Concat(msgs) == Concat(msgs);
  }

  /** With no column expected, no frame changes the page: results are
      dropped, and errors and undecodable frames reset what is already reset. */
  lemma {:induction false} IdleIgnoresFrames(s: GridState, msgs: seq<Message>)
    requires Valid(s) && s.lastSearchedCol == None
    ensures Deliver(s, msgs) == s
    decreases |msgs|
  {
    if msgs != [] {
      assert OnMessage(s, msgs[0]) == s;
      IdleIgnoresFrames(s, msgs[1..]);
    }
  }

  /** A null in a visible position ends the stream: the frame is appended, the
      redraw throws, the expected column is forgotten, and every later frame
      is dropped. */
  lemma NullFrameEndsStream(s: GridState, c: Index, items: seq<Item>, rest: seq<Message>)
    requires Valid(s) && s.lastSearchedCol == Some(c)
    requires |s.caches[c]| + |items| <= ResultRows && Null in items
    ensures var t := Deliver(s, [Parsed("results", Many(items))] + rest);
            && t.caches[c] == s.caches[c] + items
            && t.lastSearchedCol == None
  {
    var m := Parsed("results", Many(items));
    var u := OnMessage(s, m);
    var cache := s.caches[c] + items;
    var i :| 0 <= i < |items| && items[i] == Null;
    assert cache[|s.caches[c]| + i] == Null;
    assert !NoNullIn(cache, 0, ResultRows - 1);
    assert u.lastSearchedCol == None;
    assert ([m] + rest)[1..] == rest;
    IdleIgnoresFrames(u, rest);
  }
}

=== FILE: models.dfy ===
/** The record types shared by the retrieval pipeline: the optional-value
    wrapper and the `Chunk` record (app/components/models.py). */
module Models {

  /** A value that may be absent; Python's `Optional[...]` / `None`. */
  datatype Option<T> = None | Some(value: T)

  /** One stored text snippet with its three optional relevance scores.
      Scores are exact reals: floating-point rounding is not modelled. */
  datatype Chunk = Chunk(
    id: int,
    text: string,
    source: string,
    embeddingSimilarityScore: Option<real>,
    rerankingScore: Option<real>,
    trigramSimilarityScore: Option<real>
  )
}

=== FILE: personal_search.dfy ===
/** The trigram retriever (`PersonalSearch.search` in
    app/components/personal_search.py). The stored chunk list is a parameter,
    and because the source writes scores into the shared chunk objects, a
    search returns both its results and the stored list as it is afterwards. */
module PersonalSearch {
  import opened Models
  import opened StableOrder
  import opened Trigrams

  /** `MIN_CHUNKS_TO_RETURN`: how many chunks a search hands back at most. */
  const MinChunksToReturn: nat := 2

  function Min(a: nat, b: nat): nat { if a <= b then a else b }

  function Max(a: nat, b: nat): nat { if a >= b then a else b }

  /** How many chunks a non-empty query keeps out of n stored ones. */
  function KeepCount(n: nat): (r: nat)
    ensures r == Min(n, MinChunksToReturn)
    ensures r <= n && (n > 0 ==> r > 0)
  {
    Min(n, Max(MinChunksToReturn, 1))
  }

  /** The similarity of every stored chunk's text to the query's trigrams. */
  function Scores(store: seq<Chunk>, queryTrigrams: set<string>): (r: seq<real>)
    ensures |r| == |store|
    ensures forall i :: 0 <= i < |store| ==> 0.0 <= r[i] <= 1.0
  {
    seq(|store|, i requires 0 <= i < |store| => Similarity(queryTrigrams, GetTrigrams(store[i].text)))
  }

  /** The stored positions a non-empty query keeps, best first. */
  function Kept(store: seq<Chunk>, query: string): (r: seq<nat>)
    requires query != ""
    ensures Below(r, |store|)
    ensures |r| == Min(|store|, MinChunksToReturn)
  {
    var order := Order(Scores(store, GetTrigrams(query)));
    var k := KeepCount(|store|);
    PrefixBelow(order, k, |store|);
    order[..k]
  }

  lemma PrefixBelow(s: seq<nat>, k: nat, n: nat)
    requires Below(s, n) && k <= |s|
    ensures Below(s[..k], n)
  {
    assert forall j :: 0 <= j < k ==> s[..k][j] == s[j];
  }

  /** What a search hands back, and the stored list after its score writes. */
  datatype SearchOutcome = SearchOutcome(results: seq<Chunk>, store: seq<Chunk>)

  function Search(store: seq<Chunk>, query: string): (out: SearchOutcome)
    ensures |out.store| == |store|
    ensures forall i :: 0 <= i < |store| ==>
              out.store[i] == store[i].(trigramSimilarityScore := out.store[i].trigramSimilarityScore)
    ensures GetTrigrams(query) == {} <==> query == ""
    ensures query == "" ==> out.results == store[..Min(|store|, MinChunksToReturn)] && out.store == store
    ensures |out.results| == Min(|store|, MinChunksToReturn)
  {
    var queryTrigrams := GetTrigrams(query);
    if queryTrigrams == {} then
      SearchOutcome(store[..Min(|store|, MinChunksToReturn)], store)
    else
      Rescore(store, Scores(store, queryTrigrams), Kept(store, query))
  }

  /** The reset loop of `search`: every stored chunk's trigram score is cleared. */
  function ClearScores(store: seq<Chunk>): (r: seq<Chunk>)
    ensures |r| == |store|
    ensures forall i :: 0 <= i < |store| ==>
              r[i].trigramSimilarityScore == None && r[i] == store[i].(trigramSimilarityScore := None)
  {
    seq(|store|, i requires 0 <= i < |store| => store[i].(trigramSimilarityScore := None))
  }

  /** The write loop of `search`: for each kept position in turn, the stored
      chunk there gets that position's similarity as its trigram score. */
  function WriteKept(s: seq<Chunk>, scores: seq<real>, kept: seq<nat>): (r: seq<Chunk>)
    requires |scores| == |s| && Below(kept, |s|)
    ensures |r| == |s|
    ensures forall i :: 0 <= i < |s| ==>
              r[i] == if i in kept then s[i].(trigramSimilarityScore := Some(scores[i])) else s[i]
    decreases |kept|
  {
    if kept == [] then s
    else
      var i := kept[0];
      assert forall j :: j in kept <==> j == i || j in kept[1..] by {
        assert kept == [i] + kept[1..];
      }
      WriteKept(s[i := s[i].(trigramSimilarityScore := Some(scores[i]))], scores, kept[1..])
  }

  /** The branch of `search` for a query with trigrams: every stored score is
      reset, the kept chunks get their similarity written back one after the
      other, and the results are the kept stored chunks as those writes leave
      them. */
  function Rescore(store: seq<Chunk>, scores: seq<real>, kept: seq<nat>): (out: SearchOutcome)
    requires |scores| == |store| && Below(kept, |store|)
    ensures |out.results| == |kept|
    ensures |out.store| == |store|
    ensures forall i :: 0 <= i < |store| ==>
              out.store[i] == store[i].(trigramSimilarityScore := if i in kept then Some(scores[i]) else None)
    ensures forall p :: 0 <= p < |kept| ==>
              && out.results[p] == store[kept[p]].(trigramSimilarityScore := Some(scores[kept[p]]))
              && out.results[p] == out.store[kept[p]]
  {
    var after := WriteKept(ClearScores(store), scores, kept);
    assert forall p :: 0 <= p < |kept| ==> kept[p] in kept;
    SearchOutcome(Select(after, kept), after)
  }

  /** Unfolds `Kept`: the kept positions are the first ones of the stable
      order of scores. The lemmas below call it to bring that equation into view. */
  lemma KeptIsOrderPrefix(store: seq<Chunk>, query: string)
    requires query != ""
    ensures var order := Order(Scores(store, GetTrigrams(query)));
            Kept(store, query) == order[..KeepCount(|store|)]
  {
  }

  /** A non-empty query keeps no stored position twice. */
  lemma KeptDistinct(store: seq<Chunk>, query: string)
    requires query != ""
    ensures var kept := Kept(store, query);
            forall p, q :: 0 <= p < q < |kept| ==> kept[p] != kept[q]
  {
    var order := Order(Scores(store, GetTrigrams(query)));
    var kept := Kept(store, query);
    KeptIsOrderPrefix(store, query);
    forall p, q | 0 <= p < q < |kept| ensures kept[p] != kept[q] {
      assert kept[p] == order[p] && kept[q] == order[q];
    }
  }

  /** For a non-empty query the results are distinct stored chunks; each one
      is the stored chunk as the search leaves it, carrying its own
      similarity; every chunk not returned has its score cleared. */
  lemma SearchResults(store: seq<Chunk>, query: string)
    requires query != ""
    ensures var out, kept := Search(store, query), Kept(store, query);
            var scores := Scores(store, GetTrigrams(query));
            && |out.results| == |kept|
            && (forall p, q :: 0 <= p < q < |kept| ==> kept[p] != kept[q])
            && (forall p :: 0 <= p < |kept| ==>
                  && out.results[p] == out.store[kept[p]]
                  && out.results[p] == store[kept[p]].(trigramSimilarityScore := Some(scores[kept[p]])))
            && (forall i :: 0 <= i < |store| ==>
                  out.store[i].trigramSimilarityScore == if i in kept then Some(scores[i]) else None)
  {
    var scores := Scores(store, GetTrigrams(query));
    var kept := Kept(store, query);
    assert Search(store, query) == Rescore(store, scores, kept);
    KeptDistinct(store, query);
  }

  /** The results come best first, and equal similarities keep stored order. */
  lemma SearchRanked(store: seq<Chunk>, query: string)
    requires query != ""
    ensures var kept, scores := Kept(store, query), Scores(store, GetTrigrams(query));
            forall p, q :: 0 <= p < q < |kept| ==>
              && scores[kept[p]] >= scores[kept[q]]
              && (scores[kept[p]] == scores[kept[q]] ==> kept[p] < kept[q])
  {
    var scores := Scores(store, GetTrigrams(query));
    var order := Order(scores);
    var kept := Kept(store, query);
    KeptIsOrderPrefix(store, query);
    forall p, q | 0 <= p < q < |kept|
      ensures scores[kept[p]] >= scores[kept[q]]
      ensures scores[kept[p]] == scores[kept[q]] ==> kept[p] < kept[q]
    {
      assert kept[p] == order[p] && kept[q] == order[q];
    }
  }

  /** No chunk left out scores higher than a returned one, and on a tie the
      returned one is stored earlier. */
  lemma SearchKeepsBest(store: seq<Chunk>, query: string)
    requires query != ""
    ensures var kept, scores := Kept(store, query), Scores(store, GetTrigrams(query));
            forall i, p :: 0 <= i < |store| && i !in kept && 0 <= p < |kept| ==>
              && scores[i] <= scores[kept[p]]
              && (scores[i] == scores[kept[p]] ==> kept[p] < i)
  {
    var scores := Scores(store, GetTrigrams(query));
    var order := Order(scores);
    var k := KeepCount(|store|);
    var kept := Kept(store, query);
    KeptIsOrderPrefix(store, query);
    PrefixGoesFirst(scores, k);
    forall i, p | 0 <= i < |store| && i !in kept && 0 <= p < |kept|
      ensures scores[i] <= scores[kept[p]]
      ensures scores[i] == scores[kept[p]] ==> kept[p] < i
    {
      assert kept[p] == order[p];
      assert Before(scores, order[p], i);
    }
  }
}

=== FILE: pipeline.dfy ===
/** The retrieval steps of the `/search` endpoint (app/main.py): personal
    search, then reranking of what it returned. */
module Pipeline {
  import opened Models
  import opened PersonalSearch
  import opened Reranker

  /** Retrieval comes back empty only for an empty store, so the endpoint's
      "no chunks found" branch is reachable only then; reranking then returns
      the retrieved chunks rearranged, best embedding score first, scored 1
      and 1/2 when two were retrieved. */
  lemma RetrieveThenRerank(store: seq<Chunk>, query: string)
    ensures var retrieved := Search(store, query).results;
            var r := Rerank(retrieved);
            && (retrieved == [] <==> store == [])
            && |r| == Min(|store|, MinChunksToReturn)
            && multiset(AllUnranked(r)) == multiset(AllUnranked(retrieved))
            && (|store| >= 2 ==> r[0].rerankingScore == Some(1.0) && r[1].rerankingScore == Some(0.5))
  {
    var retrieved := Search(store, query).results;
    assert |retrieved| == Min(|store|, MinChunksToReturn);
    RerankRearranges(retrieved);
    if |store| >= 2 {
      TopTwoScores(retrieved);
    }
  }

  lemma TopTwoScores(xs: seq<Chunk>)
    requires |xs| == 2
    ensures Rerank(xs)[0].rerankingScore == Some(1.0)
    ensures Rerank(xs)[1].rerankingScore == Some(0.5)
  {
    assert PositionScore(1, 2) == 0.5;
  }
}

=== FILE: reranker.dfy ===
/** The simulated reranker (`Reranker.rerank` in app/components/reranker.py):
    a stable sort by embedding score, highest first, followed by a positional
    rerank score. */
module Reranker {
  import opened Models
  import opened StableOrder

  /** The sort key: the embedding score, with a missing score counted as 0. */
  function EffectiveScore(c: Chunk): real {
    match c.embeddingSimilarityScore
    case Some(s) => s
    case None => 0.0
  }

  function ScoreKeys(chunks: seq<Chunk>): (r: seq<real>)
    ensures |r| == |chunks|
  {
    seq(|chunks|, i requires 0 <= i < |chunks| => EffectiveScore(chunks[i]))
  }

  /** The rerank score given to output position i of n: 1 - i/n. */
  function PositionScore(i: nat, n: nat): (r: real)
    requires i < n
    ensures 0.0 < r <= 1.0
    ensures i == 0 <==> r == 1.0
  {
    1.0 - (i as real) / (n as real)
  }

  /** A chunk with its rerank score erased: what the reranker leaves alone. */
  function Unranked(c: Chunk): Chunk {
    c.(rerankingScore := None)
  }

  function AllUnranked(s: seq<Chunk>): (r: seq<Chunk>)
    ensures |r| == |s|
  {
    seq(|s|, i requires 0 <= i < |s| => Unranked(s[i]))
  }

  function Rerank(chunks: seq<Chunk>): (r: seq<Chunk>)
    ensures |r| == |chunks|
    ensures forall p, q :: 0 <= p < q < |r| ==> EffectiveScore(r[p]) >= EffectiveScore(r[q])
    ensures forall p :: 0 <= p < |r| ==> r[p].rerankingScore == Some(PositionScore(p, |r|))
  {
    var order := Order(ScoreKeys(chunks));
    var sorted := Select(chunks, order);
    seq(|sorted|, p requires 0 <= p < |sorted| =>
          sorted[p].(rerankingScore := Some(PositionScore(p, |sorted|))))
  }

  /** Every output chunk is an input chunk with only its rerank score replaced. */
  lemma RerankPositions(chunks: seq<Chunk>)
    ensures var r := Rerank(chunks);
            forall p :: 0 <= p < |r| ==>
              exists i :: 0 <= i < |chunks| && r[p] == chunks[i].(rerankingScore := r[p].rerankingScore)
  {
    var r, order := Rerank(chunks), Order(ScoreKeys(chunks));
    forall p | 0 <= p < |r|
      ensures exists i :: 0 <= i < |chunks| && r[p] == chunks[i].(rerankingScore := r[p].rerankingScore)
    {
      var i := order[p];
      assert 0 <= i < |chunks|;
      assert r[p] == chunks[i].(rerankingScore := r[p].rerankingScore);
    }
  }

  /** Apart from rerank scores the output is a rearrangement of the input. */
  lemma RerankRearranges(chunks: seq<Chunk>)
    ensures multiset(AllUnranked(Rerank(chunks))) == multiset(AllUnranked(chunks))
  {
    var order := Order(ScoreKeys(chunks));
    var erased := AllUnranked(chunks);
    assert AllUnranked(Rerank(chunks)) == Select(erased, order);
    SelectRearranges(erased, order);
  }

  /** Rerank scores start at 1 and strictly decrease along the output. */
  lemma RerankScoresDecrease(chunks: seq<Chunk>)
    ensures var r := Rerank(chunks);
            && (|r| > 0 ==> r[0].rerankingScore == Some(1.0))
            && forall p, q :: 0 <= p < q < |r| ==>
                 r[p].rerankingScore.value > r[q].rerankingScore.value
  {
    forall p: nat, q: nat | p < q < |chunks|
      ensures PositionScore(p, |chunks|) > PositionScore(q, |chunks|)
    {
      DivideKeepsOrder(p as real, q as real, |chunks| as real);
    }
  }

  lemma DivideKeepsOrder(a: real, b: real, n: real)
    requires a < b && n > 0.0
    ensures a / n < b / n
  {
    assert b / n - a / n == (b - a) / n;
  }

  /** The chunks of `s` whose sort key is v, rerank scores erased, in order. */
  function Tier(s: seq<Chunk>, v: real): seq<Chunk> {
    if s == [] then []
    else (if EffectiveScore(s[0]) == v then [Unranked(s[0])] else []) + Tier(s[1..], v)
  }

  lemma {:induction false} TierIgnoresRanks(s: seq<Chunk>, t: seq<Chunk>, v: real)
    requires |s| == |t|
    requires forall p :: 0 <= p < |s| ==> Unranked(s[p]) == Unranked(t[p])
    ensures Tier(s, v) == Tier(t, v)
    decreases |s|
  {
    if s != [] {
      assert s[0].embeddingSimilarityScore == Unranked(s[0]).embeddingSimilarityScore;
      assert t[0].embeddingSimilarityScore == Unranked(t[0]).embeddingSimilarityScore;
      TierIgnoresRanks(s[1..], t[1..], v);
    }
  }

  lemma {:induction false} TierOfSelect(xs: seq<Chunk>, idx: seq<nat>, v: real)
    requires Below(idx, |xs|)
    ensures Tier(Select(xs, idx), v) == Select(AllUnranked(xs), KeyTier(ScoreKeys(xs), idx, v))
    decreases |idx|
  {
    var keys, erased := ScoreKeys(xs), AllUnranked(xs);
    if idx != [] {
      var i, rest := idx[0], idx[1..];
      var head := if keys[i] == v then [i] else [];
      TierOfSelect(xs, rest, v);
      assert Select(xs, idx)[1..] == Select(xs, rest);
      assert KeyTier(keys, idx, v) == head + KeyTier(keys, rest, v);
      SelectAppend(erased, head, KeyTier(keys, rest, v));
    }
  }

  /** Stability: for every sort key, the chunks sharing it appear in the
      output in the same relative order as in the input. */
  lemma RerankStable(chunks: seq<Chunk>, v: real)
    ensures Tier(Rerank(chunks), v) == Tier(chunks, v)
  {
    var keys := ScoreKeys(chunks);
    var order, all := Order(keys), Span(0, |chunks|);
    TierIgnoresRanks(Rerank(chunks), Select(chunks, order), v);
    TierOfSelect(chunks, order, v);
    OrderKeepsTiers(keys, v);
    TierOfSelect(chunks, all, v);
    SelectAll(chunks);
  }
}

=== FILE: stable_order.dfy ===
/** Stable descending ordering of positions by a real key.

    Python's `list.sort(key=k, reverse=True)` and `sorted(xs, key=k, reverse=True)`
    put higher keys first and keep items with equal keys in their original
    relative order. Sorting a list that way is the same as listing its
    positions 0..n-1 in the strict total order `Before` below and reading the
    items off at those positions. */
module StableOrder {

  /** Every position in `s` is below `n`. */
  predicate Below(s: seq<nat>, n: nat) {
    forall k :: 0 <= k < |s| ==> s[k] < n
  }

  /** The positions lo, lo+1, ..., hi-1 in increasing order. */
  function Span(lo: nat, hi: nat): (r: seq<nat>)
    decreases hi - lo
    ensures |r| == if lo <= hi then hi - lo else 0
    ensures forall k :: 0 <= k < |r| ==> r[k] == lo + k
    ensures forall x: nat :: x in r <==> lo <= x < hi
  {
    if lo >= hi then [] else [lo] + Span(lo + 1, hi)
  }

  /** Position i goes before position j: the higher key first, and on equal
      keys the earlier original position first. */
  predicate Before(keys: seq<real>, i: nat, j: nat)
    requires i < |keys| && j < |keys|
  {
    keys[i] > keys[j] || (keys[i] == keys[j] && i < j)
  }

  /** `s` lists positions strictly in the order `Before`. */
  predicate Ordered(keys: seq<real>, s: seq<nat>)
    requires Below(s, |keys|)
  {
    forall p, q :: 0 <= p < q < |s| ==> Before(keys, s[p], s[q])
  }

  /** The specification of a stable descending sort of the positions of `keys`:
      a rearrangement of 0..|keys|-1 listed in the order `Before`. */
  predicate IsStableOrder(keys: seq<real>, r: seq<nat>) {
    && Below(r, |keys|)
    && multiset(r) == multiset(Span(0, |keys|))
    && Ordered(keys, r)
  }

  /** Prepending a position that goes before every listed one keeps the order. */
  lemma OrderedCons(keys: seq<real>, x: nat, t: seq<nat>)
    requires x < |keys| && Below(t, |keys|) && Ordered(keys, t)
    requires forall k :: 0 <= k < |t| ==> Before(keys, x, t[k])
    ensures Below([x] + t, |keys|) && Ordered(keys, [x] + t)
  {
    var r := [x] + t;
    forall p, q | 0 <= p < q < |r| ensures Before(keys, r[p], r[q]) {
      if p > 0 {
        assert r[p] == t[p - 1] && r[q] == t[q - 1];
      } else {
        assert r[q] == t[q - 1];
      }
    }
  }

  /** Inserts position i, which precedes every position of `s`, into the
      ordered sequence `s`. */
  function Insert(keys: seq<real>, i: nat, s: seq<nat>): (r: seq<nat>)
    requires i < |keys| && Below(s, |keys|) && Ordered(keys, s)
    requires forall k :: 0 <= k < |s| ==> i < s[k]
    ensures Below(r, |keys|)
    ensures multiset(r) == multiset(s) + multiset{i}
    ensures Ordered(keys, r)
  {
    if s == [] || keys[i] >= keys[s[0]] then
      assert forall k :: 0 <= k < |s| ==> Before(keys, i, s[k]) by {
        forall k | 0 <= k < |s| ensures Before(keys, i, s[k]) {
          if k > 0 {
            assert Before(keys, s[0], s[k]);
          }
        }
      }
      OrderedCons(keys, i, s);
      [i] + s
    else
      var rest := Insert(keys, i, s[1..]);
      assert s == [s[0]] + s[1..];
      assert forall k :: 0 <= k < |rest| ==> Before(keys, s[0], rest[k]) by {
        forall k | 0 <= k < |rest| ensures Before(keys, s[0], rest[k]) {
          assert rest[k] in multiset(rest);
          if rest[k] != i {
            assert rest[k] in s[1..];
          }
        }
      }
      OrderedCons(keys, s[0], rest);
      [s[0]] + rest
  }

  /** Sorts the positions lo..|keys|-1 by insertion, last position first. */
  function SortFrom(keys: seq<real>, lo: nat): (r: seq<nat>)
    requires lo <= |keys|
    decreases |keys| - lo
    ensures Below(r, |keys|)
    ensures multiset(r) == multiset(Span(lo, |keys|))
    ensures Ordered(keys, r)
  {
    if lo == |keys| then []
    else
      var rest := SortFrom(keys, lo + 1);
      assert forall k :: 0 <= k < |rest| ==> lo < rest[k] by {
        forall k | 0 <= k < |rest| ensures lo < rest[k] {
          assert rest[k] in multiset(rest);
          assert rest[k] in Span(lo + 1, |keys|);
        }
      }
      assert Span(lo, |keys|) == [lo] + Span(lo + 1, |keys|);
      Insert(keys, lo, rest)
  }

  /** The positions of `keys` in stable descending key order. */
  function Order(keys: seq<real>): (r: seq<nat>)
    ensures IsStableOrder(keys, r)
    ensures |r| == |keys|
    ensures forall x: nat :: x < |keys| ==> x in r
    ensures forall p, q :: 0 <= p < q < |r| ==> r[p] != r[q]
    ensures forall p, q :: 0 <= p < q < |r| ==> keys[r[p]] >= keys[r[q]]
    ensures forall p, q :: 0 <= p < q < |r| && keys[r[p]] == keys[r[q]] ==> r[p] < r[q]
  {
    var r := SortFrom(keys, 0);
    SpanRearranged(r, |keys|);
    r
  }

  /** A rearrangement of the positions 0..n-1 has length n and holds each of them. */
  lemma SpanRearranged(r: seq<nat>, n: nat)
    requires multiset(r) == multiset(Span(0, n))
    ensures |r| == n
    ensures forall x: nat :: x < n ==> x in r
  {
    assert |r| == |multiset(r)| == |multiset(Span(0, n))| == n;
    forall x: nat | x < n ensures x in r {
      assert x in Span(0, n);
      assert x in multiset(r);
    }
  }

  /** The first position of an ordered sequence goes before every other one in it. */
  lemma HeadGoesFirst(keys: seq<real>, s: seq<nat>, x: nat)
    requires Below(s, |keys|) && Ordered(keys, s) && s != [] && x in s
    ensures x < |keys|
    ensures x != s[0] ==> Before(keys, s[0], x)
  {
    var k :| 0 <= k < |s| && s[k] == x;
    if k > 0 {
      assert Before(keys, s[0], s[k]);
    }
  }

  /** In an ordered sequence holding every position, the first k positions go
      before every position left out of them. */
  lemma OrderedPrefixFirst(keys: seq<real>, r: seq<nat>, k: nat, i: nat, p: nat)
    requires Below(r, |keys|) && Ordered(keys, r) && k <= |r|
    requires i in r && i !in r[..k] && p < k
    ensures i < |keys|
    ensures Before(keys, r[p], i)
  {
    var q :| 0 <= q < |r| && r[q] == i;
    assert forall j :: 0 <= j < k ==> r[j] in r[..k];
    assert Before(keys, r[p], r[q]);
  }

  /** The first k positions of the order go before every other position: no
      position left out of the prefix has a higher key, and on equal keys the
      position kept is the earlier one. */
  lemma PrefixGoesFirst(keys: seq<real>, k: nat)
    requires k <= |keys|
    ensures var r := Order(keys);
            forall i: nat, p :: i < |keys| && i !in r[..k] && 0 <= p < k ==> Before(keys, r[p], i)
  {
    var r := Order(keys);
    forall i: nat, p | i < |keys| && i !in r[..k] && 0 <= p < k
      ensures Before(keys, r[p], i)
    {
      OrderedPrefixFirst(keys, r, k, i, p);
    }
  }

  /** Two sequences listing the same positions in the order `Before` are equal. */
  lemma {:induction false} OrderedUnique(keys: seq<real>, a: seq<nat>, b: seq<nat>)
    requires Below(a, |keys|) && Below(b, |keys|)
    requires Ordered(keys, a) && Ordered(keys, b)
    requires multiset(a) == multiset(b)
    ensures a == b
    decreases |a|
  {
    if a == [] {
      assert |b| == |multiset(b)| == 0;
    } else {
      assert |b| == |multiset(b)| == |multiset(a)| == |a|;
      assert a[0] in multiset(b) && b[0] in multiset(a);
      HeadGoesFirst(keys, a, b[0]);
      HeadGoesFirst(keys, b, a[0]);
      assert a[0] == b[0];
      assert a == [a[0]] + a[1..];
      assert b == [b[0]] + b[1..];
      assert multiset(a[1..]) == multiset(a) - multiset{a[0]};
      assert multiset(b[1..]) == multiset(b) - multiset{b[0]};
      OrderedUnique(keys, a[1..], b[1..]);
    }
  }

  /** The stable descending order is unique: any sequence meeting the
      specification is the one `Order` computes. */
  lemma OrderUnique(keys: seq<real>, r: seq<nat>)
    requires IsStableOrder(keys, r)
    ensures r == Order(keys)
  {
    OrderedUnique(keys, r, Order(keys));
  }

  /** The items of `xs` at the positions `idx`, in that order. */
  function Select<T>(xs: seq<T>, idx: seq<nat>): (r: seq<T>)
    requires Below(idx, |xs|)
  {
    seq(|idx|, p requires 0 <= p < |idx| => xs[idx[p]])
  }

  lemma SelectAppend<T>(xs: seq<T>, u: seq<nat>, v: seq<nat>)
    requires Below(u, |xs|) && Below(v, |xs|)
    ensures Below(u + v, |xs|)
    ensures Select(xs, u + v) == Select(xs, u) + Select(xs, v)
  {
    assert Below(u + v, |xs|) by {
      forall k | 0 <= k < |u + v| ensures (u + v)[k] < |xs| {
        if k >= |u| {
          assert (u + v)[k] == v[k - |u|];
        }
      }
    }
  }

  /** Taking one position out of `b` takes its item out of the selection. */
  lemma SelectRemove<T>(xs: seq<T>, b: seq<nat>, k: nat)
    requires Below(b, |xs|) && k < |b|
    ensures Below(b[..k] + b[k + 1..], |xs|)
    ensures multiset(Select(xs, b)) == multiset(Select(xs, b[..k] + b[k + 1..])) + multiset{xs[b[k]]}
  {
    var u, v := b[..k], b[k + 1..];
    assert Below(u, |xs|) && Below(v, |xs|) by {
      assert forall j :: 0 <= j < |u| ==> u[j] == b[j];
      assert forall j :: 0 <= j < |v| ==> v[j] == b[k + 1 + j];
    }
    assert b == u + ([b[k]] + v);
    SelectAppend(xs, u, [b[k]] + v);
    SelectAppend(xs, [b[k]], v);
    SelectAppend(xs, u, v);
    assert Select(xs, [b[k]]) == [xs[b[k]]];
    calc {
      multiset(Select(xs, b));
      multiset(Select(xs, u) + (Select(xs, [b[k]]) + Select(xs, v)));
      multiset(Select(xs, u)) + multiset{xs[b[k]]} + multiset(Select(xs, v));
      multiset(Select(xs, u + v)) + multiset{xs[b[k]]};
    }
  }

  /** Selecting by two rearrangements of the same positions yields two
      rearrangements of the same items. */
  lemma {:induction false} SelectPermutation<T>(xs: seq<T>, a: seq<nat>, b: seq<nat>)
    requires Below(a, |xs|) && Below(b, |xs|)
    requires multiset(a) == multiset(b)
    ensures multiset(Select(xs, a)) == multiset(Select(xs, b))
    decreases |a|
  {
    if a == [] {
      assert |b| == |multiset(b)| == 0;
    } else {
      var x := a[0];
      assert x in multiset(b);
      var k :| 0 <= k < |b| && b[k] == x;
      var a', b' := a[..0] + a[1..], b[..k] + b[k + 1..];
      assert a == a[..0] + [x] + a[1..];
      assert b == b[..k] + [x] + b[k + 1..];
      assert multiset(b') == multiset(b) - multiset{x};
      assert multiset(a') == multiset(a) - multiset{x};
      SelectRemove(xs, a, 0);
      SelectRemove(xs, b, k);
      SelectPermutation(xs, a', b');
    }
  }

  /** Reading `xs` off in the order of any rearrangement of its positions
      yields a rearrangement of `xs`. */
  lemma SelectRearranges<T>(xs: seq<T>, idx: seq<nat>)
    requires Below(idx, |xs|)
    requires multiset(idx) == multiset(Span(0, |xs|))
    ensures multiset(Select(xs, idx)) == multiset(xs)
  {
    SelectPermutation(xs, idx, Span(0, |xs|));
    SelectAll(xs);
  }

  lemma SelectAll<T>(xs: seq<T>)
    ensures Below(Span(0, |xs|), |xs|)
    ensures Select(xs, Span(0, |xs|)) == xs
  {
    var all := Span(0, |xs|);
    var r := Select(xs, all);
    assert |r| == |xs|;
    forall p | 0 <= p < |xs| ensures r[p] == xs[p] {
      assert all[p] == p;
    }
  }

  /** The positions of `s` whose key equals `v`, in the order of `s`. */
  function KeyTier(keys: seq<real>, s: seq<nat>, v: real): (r: seq<nat>)
    requires Below(s, |keys|)
    ensures Below(r, |keys|)
    ensures forall k :: 0 <= k < |r| ==> r[k] in s && keys[r[k]] == v
  {
    if s == [] then []
    else (if keys[s[0]] == v then [s[0]] else []) + KeyTier(keys, s[1..], v)
  }

  lemma {:induction false} KeyTierCount(keys: seq<real>, s: seq<nat>, v: real, x: nat)
    requires Below(s, |keys|)
    ensures multiset(KeyTier(keys, s, v))[x] == if x in s && keys[x] == v then multiset(s)[x] else 0
    decreases |s|
  {
    if s != [] {
      KeyTierCount(keys, s[1..], v, x);
      assert s == [s[0]] + s[1..];
    }
  }

  lemma KeyTierPermutation(keys: seq<real>, a: seq<nat>, b: seq<nat>, v: real)
    requires Below(a, |keys|) && Below(b, |keys|)
    requires multiset(a) == multiset(b)
    ensures multiset(KeyTier(keys, a, v)) == multiset(KeyTier(keys, b, v))
  {
    forall x: nat
      ensures multiset(KeyTier(keys, a, v))[x] == multiset(KeyTier(keys, b, v))[x]
    {
      KeyTierCount(keys, a, v, x);
      KeyTierCount(keys, b, v, x);
    }
  }

  lemma {:induction false} KeyTierOrdered(keys: seq<real>, s: seq<nat>, v: real)
    requires Below(s, |keys|) && Ordered(keys, s)
    ensures Ordered(keys, KeyTier(keys, s, v))
    decreases |s|
  {
    if s != [] {
      var rest := s[1..];
      var t := KeyTier(keys, rest, v);
      KeyTierOrdered(keys, rest, v);
      assert KeyTier(keys, s, v) == (if keys[s[0]] == v then [s[0]] else []) + t;
      if keys[s[0]] == v {
        forall k | 0 <= k < |t| ensures Before(keys, s[0], t[k]) {
          var j :| 0 <= j < |rest| && rest[j] == t[k];
          assert Before(keys, s[0], s[j + 1]);
        }
        OrderedCons(keys, s[0], t);
      } else {
        assert KeyTier(keys, s, v) == t;
      }
    }
  }

  lemma {:induction false} SpanTierOrdered(keys: seq<real>, lo: nat, v: real)
    requires lo <= |keys|
    ensures Ordered(keys, KeyTier(keys, Span(lo, |keys|), v))
    decreases |keys| - lo
  {
    if lo < |keys| {
      var span := Span(lo, |keys|);
      var t := KeyTier(keys, Span(lo + 1, |keys|), v);
      SpanTierOrdered(keys, lo + 1, v);
      assert span[1..] == Span(lo + 1, |keys|);
      assert KeyTier(keys, span, v) == (if keys[lo] == v then [lo] else []) + t;
      if keys[lo] == v {
        forall k | 0 <= k < |t| ensures Before(keys, lo, t[k]) {
          assert t[k] in Span(lo + 1, |keys|);
        }
        OrderedCons(keys, lo, t);
      } else {
        assert KeyTier(keys, span, v) == t;
      }
    }
  }

  /** Stability: among the positions that share any one key, the stable
      order keeps the original order. */
  lemma OrderKeepsTiers(keys: seq<real>, v: real)
    ensures KeyTier(keys, Order(keys), v) == KeyTier(keys, Span(0, |keys|), v)
  {
    var r := Order(keys);
    KeyTierPermutation(keys, r, Span(0, |keys|), v);
    KeyTierOrdered(keys, r, v);
    SpanTierOrdered(keys, 0, v);
    OrderedUnique(keys, KeyTier(keys, r, v), KeyTier(keys, Span(0, |keys|), v));
  }
}

=== FILE: trigrams.dfy ===
/** Character-trigram sets and their Jaccard similarity
    (`get_trigrams` and `trigram_similarity` in app/components/personal_search.py). */
module Trigrams {

  /** Lower-cases one character. Only ASCII letters are mapped; Python's
      full Unicode `str.lower` is not modelled. */
  function LowerChar(c: char): (r: char)
    ensures 'A' <= c <= 'Z' ==> 'a' <= r <= 'z' && r as int - c as int == 32
    ensures !('A' <= c <= 'Z') ==> r == c
    ensures !('A' <= r <= 'Z')
  {
    if 'A' <= c <= 'Z' then (c as int + 32) as char else c
  }

  /** Lower-cases a string character by character. */
  function Lower(s: string): (r: string)
    ensures |r| == |s|
    ensures forall i :: 0 <= i < |s| ==> r[i] == LowerChar(s[i])
  {
    seq(|s|, i requires 0 <= i < |s| => LowerChar(s[i]))
  }

  /** Lower-casing twice is lower-casing once. */
  lemma LowerIdempotent(s: string)
    ensures Lower(Lower(s)) == Lower(s)
  {
  }

  /** The substring of length three of `p` that starts at position i. */
  function Window(p: string, i: nat): string
    requires i + 3 <= |p|
  {
    p[i..i + 3]
  }

  /** All substrings of length three of `p`, one starting at each position. */
  function Windows(p: string): set<string> {
    set i | 0 <= i < |p| - 2 :: Window(p, i)
  }

  /** The trigram set of a text: empty for the empty text, otherwise the
      windows of the lower-cased text padded with one space on each side. */
  function GetTrigrams(text: string): (r: set<string>)
    ensures r == {} <==> text == ""
    ensures forall g :: g in r ==> |g| == 3
  {
    if text == "" then {}
    else
      var padded := " " + Lower(text) + " ";
      assert Window(padded, 0) in Windows(padded);
      Windows(padded)
  }

  /** The windows of `p`, collected one position at a time. */
  function WindowsFrom(p: string): set<string>
    decreases |p|
  {
    if |p| < 3 then {} else {p[..3]} + WindowsFrom(p[1..])
  }

  lemma {:induction false} WindowsFromIsWindows(p: string)
    ensures WindowsFrom(p) == Windows(p)
    decreases |p|
  {
    if |p| >= 3 {
      WindowsFromIsWindows(p[1..]);
      WindowsInFrom(p);
      FromInWindows(p);
    }
  }

  /** The windows of `p` after its first character are its windows from position 1 on. */
  lemma WindowShift(p: string, i: nat)
    requires i + 4 <= |p|
    ensures Window(p[1..], i) == Window(p, i + 1)
  {
    var a, b := Window(p[1..], i), Window(p, i + 1);
    assert |a| == 3 == |b|;
    forall j | 0 <= j < 3 ensures a[j] == b[j] {
      assert a[j] == p[1..][i + j] == p[i + 1 + j];
    }
  }

  lemma WindowsInFrom(p: string)
    requires |p| >= 3 && WindowsFrom(p[1..]) == Windows(p[1..])
    ensures Windows(p) <= WindowsFrom(p)
  {
    forall g | g in Windows(p) ensures g in WindowsFrom(p) {
      var i :| 0 <= i < |p| - 2 && g == Window(p, i);
      if i > 0 {
        WindowShift(p, i - 1);
        assert Window(p[1..], i - 1) in Windows(p[1..]);
      }
    }
  }

  lemma FromInWindows(p: string)
    requires |p| >= 3 && WindowsFrom(p[1..]) == Windows(p[1..])
    ensures WindowsFrom(p) <= Windows(p)
  {
    assert WindowsFrom(p) == {Window(p, 0)} + Windows(p[1..]);
    forall g | g in Windows(p[1..]) ensures g in Windows(p) {
      var i :| 0 <= i < |p| - 3 && g == Window(p[1..], i);
      WindowShift(p, i);
    }
  }

  lemma {:induction false} WindowsFromCount(p: string)
    ensures |WindowsFrom(p)| <= if |p| < 3 then 0 else |p| - 2
    decreases |p|
  {
    if |p| >= 3 {
      WindowsFromCount(p[1..]);
    }
  }

  /** A text of n >= 1 characters has between 1 and n distinct trigrams. */
  lemma TrigramCount(text: string)
    requires text != ""
    ensures 1 <= |GetTrigrams(text)| <= |text|
  {
    var padded := " " + Lower(text) + " ";
    WindowsFromIsWindows(padded);
    WindowsFromCount(padded);
  }

  /** Trigrams ignore letter case. */
  lemma TrigramsIgnoreCase(text: string)
    ensures GetTrigrams(text) == GetTrigrams(Lower(text))
  {
    LowerIdempotent(text);
  }

  /** The Jaccard ratio |a * b| / |a + b|, and 0 when either set is empty. */
  function Similarity(a: set<string>, b: set<string>): (r: real)
    ensures 0.0 <= r <= 1.0
    ensures a == {} || b == {} ==> r == 0.0
  {
    if a == {} || b == {} then 0.0
    else
      var union := |a + b|;
      SubsetCount(a * b, a + b);
      if union > 0 then (|a * b| as real) / (union as real) else 0.0
  }

  lemma SubsetCount<T>(small: set<T>, big: set<T>)
    requires small <= big
    ensures |small| <= |big|
    ensures |small| == |big| ==> small == big
  {
    assert big == small + (big - small);
    assert |big| == |small| + |big - small|;
  }

  /** The similarity does not depend on the order of its arguments. */
  lemma SimilaritySymmetric(a: set<string>, b: set<string>)
    ensures Similarity(a, b) == Similarity(b, a)
  {
    assert a * b == b * a && a + b == b + a;
  }

  /** The similarity is exactly 1 for two equal non-empty sets, and only then. */
  lemma SimilarityOne(a: set<string>, b: set<string>)
    ensures Similarity(a, b) == 1.0 <==> a != {} && a == b
  {
    if a != {} && b != {} {
      SubsetCount(a * b, a + b);
      var i, u := |a * b|, |a + b|;
      assert u > 0;
      if Similarity(a, b) == 1.0 {
        assert (i as real) / (u as real) == 1.0;
        assert i == u;
        assert a * b == a + b;
        assert a == b by {
          forall x | x in a ensures x in b { assert x in a + b; }
          forall x | x in b ensures x in a { assert x in a + b; }
        }
      }
      if a == b {
        assert a * b == a + b;
      }
    }
  }
}
